=== FILE: README.md ===
# Library catalogue: a Dafny model of its domain core

The application is a small library catalogue. Members browse the ten
lowest-numbered books, open a book's detail page with its average rating,
and search by category and maximum price. They place purchase or borrow
orders, review books and list their orders. Administrators can raise the
price of selected books by ten dollars in bulk.

This project models that domain logic as pure functions over an in-memory
store. The ORM is replaced by plain collections:

- the book table is a sequence of rows with unique ids;
- members are a map from primary key to record;
- orders and reviews are sequences in insertion order. The framework's queries over these tables have no ordering, so listing rows in table order is a choice the model makes.

Many-to-many relations (a member's borrowed books, an order's books) are
duplicate-free sequences. The framework returns their rows in no specified
order; the model fixes one order, the order in which books were first added,
and the title strings list them in that order.

Modules follow the source files:

- `Models` (`models.dfy`): the record shapes, the choice enumerations and
  their integer or letter codes, the price validators, and `total_items`.
- `Titles` (`titles.dfy`): the ", "-joined title strings. It holds the loop
  as written (append title and ", ", then slice off the last two characters)
  and a reference `Join`, with a proof that the two agree.
- `Tables` (`tables.dfy`): the store, primary-key lookup, the reviews of a
  book, and `Valid`. `Valid` is the invariant the application maintains:
  unique ids, stored review counts equal to the number of reviews, ratings
  in 1..5, and relations without duplicates.
- `Forms` (`forms.dfy`): the search, order and review forms, each cleaned to
  a value or to the list of field errors.
- `CatalogueViews` (`catalogue_views.dfy`): the index list, book detail,
  search and review check.
- `MemberViews` (`member_views.dfy`): order placement, review submission,
  the order list and `books_title`.
- `Admin` (`admin.dfy`): the bulk price increase.

Conventions:

- Prices are integer cents, since the field is a decimal with two places.
  Ten dollars is therefore 1000 cents.
- The search bound `max_price` is a whole number of cents, rounded down.
  This is exact when compared against whole-cent prices.
- An average is the exact pair `Mean(total, count)`. `NoRating` stands for
  the `-1` sentinel the pages receive.
- Missing rows give one abstract not-found outcome per view.
- Dates are opaque day numbers passed in by the caller as `today`. The order date and the review date default to the current date when `place_order` and `review` save their rows; in the model both are `today`.
- Whether an address is a valid e-mail is decided by the framework. The
  model takes that decision as a parameter `isEmail`.

The model follows the code in three places where a reader might expect
something else:

- `num_pages` is a non-negative integer, because a positive-integer field
  admits 0.
- The rating error text is 'You must enter a rating between 1 and 5!'.
- A member id that does not resolve during order placement lands in the
  view's generic error handler. The model reports it as `MemberNotFound`.

## Model

| member | source | states |
|---|---|---|
| Models.CategoryFromCode | Library-Management-master/myapp/models.py:21-29 | a category code is accepted exactly when it is one of S, F, B, T, O, and reads back to the category with that code |
| Models.StatusFromCode | Library-Management-master/myapp/models.py:43-48 | a status is accepted exactly when it is 1, 2 or 3, and the status read back has that code (Regular 1, Premium 2, Guest 3) |
| Models.OrderTypeFromCode | Library-Management-master/myapp/models.py:69-75 | an order type is accepted exactly when it is 0 or 1, and the type read back has that code (Purchase 0, Borrow 1) |
| Models.PriceErrors | Library-Management-master/myapp/models.py:31-32 | a price passes the field's validators exactly when it lies in [0, 1000] dollars; the minimum and maximum errors are reported exactly when that side is violated |
| Models.TotalItemsCountsDistinctBooks | Library-Management-master/myapp/models.py:73-79 | the item count of an order equals the number of distinct books in it |
| Titles.Join | Library-Management-master/myapp/views.py:320-327 | the reference join is "" for no titles; otherwise its length is the titles' total length plus two per separator, and it ends with the last title (no trailing separator) |
| Titles.AccumulateIsJoinPlusSeparator | Library-Management-master/myapp/models.py:61-63 | appending every title followed by ", " yields the join of the titles followed by one extra ", " |
| Titles.TrimmedAccumulateIsJoin | Library-Management-master/myapp/views.py:322-327 | cutting the last two characters off the accumulator gives exactly the join, and "" when there are no titles |
| Titles.JoinedTitles | Library-Management-master/myapp/views.py:322-327 | the string the title loop builds and trims equals the reference join of the titles |
| Titles.TwoTitlesExample | Library-Management-master/myapp/views.py:323-327 | two books titled B1 and B2 give the string "B1, B2" |
| Tables.FindBook | Library-Management-master/myapp/views.py:68 | a lookup by id returns a row of the table with that id, or reports that no row has it |
| Tables.ReviewsOf | Library-Management-master/myapp/views.py:69 | the reviews of a book are exactly the stored reviews whose book is that id |
| Tables.ReviewsOfCounts | Library-Management-master/myapp/views.py:69 | each review of the book is kept as many times as it is stored and every other review is dropped, so the length is the book's number of review rows |
| Tables.TitlesOf | Library-Management-master/myapp/views.py:321-324 | never more titles than ids; when every id is a book, one title per id and position i holds the title of the book with id i |
| Forms.CleanSearch | Library-Management-master/myapp/forms.py:8-20 | a search is valid exactly when the name has at most 100 characters, the category is blank or one of the five codes, and a maximum price >= 0 is given; a valid search keeps the name and bound, and blank means no category; the name-too-long, price-required and price-negative errors appear exactly when their fields fail |
| Forms.Dedup | Library-Management-master/myapp/models.py:73 | the cleaned book list has no duplicates and holds exactly the chosen books |
| Forms.CleanOrder | Library-Management-master/myapp/forms.py:24-29 | an order form is valid exactly when at least one book is chosen, every chosen id is a book, and the type is 0 or 1; it yields only the books (each once, exactly those chosen) and the type; missing books or type are reported as required |
| Forms.CleanRating | Library-Management-master/myapp/forms.py:43-47 | a rating passes exactly when it is in 1..5 and is returned unchanged; otherwise the error is 'You must enter a rating between 1 and 5!' |
| Forms.CleanRatingField | Library-Management-master/myapp/forms.py:37-47 | the rating field yields a value exactly when one is given in 1..5, returned unchanged; 0 and anything above 5 get the range message |
| Forms.CleanReview | Library-Management-master/myapp/forms.py:33-47 | a review form is valid exactly when the reviewer is a non-empty e-mail, the book exists and the rating is in 1..5; the review it yields carries the submitted reviewer, book, rating and comments (without the framework's whitespace stripping) and today's date; an out-of-range rating (0 or above 5) is reported with the range message |
| CatalogueViews.NextAfter | Library-Management-master/myapp/views.py:41 | returns the book with the smallest id above a bound, or reports that none is above it |
| CatalogueViews.RecentBooks | Library-Management-master/myapp/views.py:37-42 | the index list has at most 10 books of the table in strictly increasing id order; any book left out means the list has 10 books, all with smaller ids, so the list is the 10 smallest ids |
| CatalogueViews.SumRatings | Library-Management-master/myapp/views.py:74 | when every rating is in 1..5, the total lies between the count and five times the count |
| CatalogueViews.SumRatingsAppend | Library-Management-master/myapp/views.py:74 | the rating sum of two runs of reviews is the sum of their sums |
| CatalogueViews.SumRatingsPermutation | Library-Management-master/myapp/views.py:69-74 | the rating sum does not depend on the order the review rows come back in |
| CatalogueViews.AverageOf | Library-Management-master/myapp/views.py:72-75 | no reviews gives the -1 sentinel and only then; otherwise the mean is the sum of the ratings over the number of reviews, which lies in [1, 5] when each rating does |
| CatalogueViews.BookDetail | Library-Management-master/myapp/views.py:65-78 | the page is not found exactly when no book has the id; it shows that book, exactly its reviews, their average (sum of ratings over number of reviews), and the sentinel exactly when it has no reviews |
| CatalogueViews.DetailAverageIgnoresRowOrder | Library-Management-master/myapp/views.py:69-75 | for the book's reviews read in any order, the detail average is their rating sum over their number, and the sentinel exactly when there are none |
| CatalogueViews.DetailAverageInRange | Library-Management-master/myapp/views.py:72-75 | in a valid store the detail average of a reviewed book lies in [1, 5] |
| CatalogueViews.SelectBooks | Library-Management-master/myapp/views.py:98-101 | the results are exactly the books priced at or below the bound and, when a category is chosen, in that category |
| CatalogueViews.SelectBooksCounts | Library-Management-master/myapp/views.py:98-101 | each matching book row is listed as many times as it is stored (once, for a table of distinct rows) and no other row is listed |
| CatalogueViews.FindBooks | Library-Management-master/myapp/views.py:86-116 | an invalid form is shown again exactly when cleaning fails; the results page echoes the cleaned query (name, category, bound) and lists the filtered table; with no category the results are exactly the books with price <= max_price, and with a category exactly those whose category code also equals it |
| CatalogueViews.CheckReviews | Library-Management-master/myapp/views.py:248-273 | not found exactly when no book has the id; a zero stored count gives the sentinel; a positive count gives the sum of the book's ratings over its number of reviews; the "no reviews available" outcome happens exactly when the count is positive but the book has no reviews |
| CatalogueViews.CheckAgreesWithDetail | Library-Management-master/myapp/views.py:254-260 | in a valid store the review check never reaches the division by zero, and it reports the same average as the detail page |
| MemberViews.AddAll | Library-Management-master/myapp/views.py:144-146 | adding books to a relation keeps every earlier entry in place, gives exactly the union, and keeps it free of duplicates |
| MemberViews.PlaceOrder | Library-Management-master/myapp/views.py:128-152 | an invalid form or a missing member changes nothing. A placed order belongs to the authenticated member, holds exactly the chosen books (each once) and type, and is appended to the orders. Books, reviews and other members are untouched. A Borrow makes the borrowed set the old set plus the ordered books; a Purchase leaves it as it was; no borrowed book is ever removed |
| MemberViews.PlaceOrderPreservesValid | Library-Management-master/myapp/views.py:136-146 | placing an order keeps the store valid |
| MemberViews.CanReview | Library-Management-master/myapp/views.py:170 | a member may review exactly when their status is not Guest |
| MemberViews.IncrementReviews | Library-Management-master/myapp/views.py:177-179 | the row with the reviewed id gets its review count plus one and is otherwise unchanged; every other row is unchanged |
| MemberViews.SubmitReview | Library-Management-master/myapp/views.py:164-192 | a non-member or Guest gets "not eligible" and an invalid form is shown again, both leaving the store unchanged; the stored review is the cleaned form (the submitted reviewer, book, rating and comments, dated today), has a rating in 1..5 for an existing book, is appended to the reviews, raises that book's count by one and leaves every other book, member and order unchanged |
| MemberViews.OpenReview | Library-Management-master/myapp/views.py:164-192 | opening the review page gives "not eligible" exactly to a non-member or a Guest and an empty form to everyone else |
| MemberViews.OpenAndSubmitAgreeOnEligibility | Library-Management-master/myapp/views.py:167-170 | opening the page and submitting to it refuse exactly the same users |
| MemberViews.IncrementKeepsIds | Library-Management-master/myapp/views.py:177-179 | raising a review count keeps book ids unique |
| MemberViews.IncrementKeepsCountsConsistent | Library-Management-master/myapp/views.py:176-179 | storing one review and raising its book's count by one keeps every count equal to that book's number of reviews |
| MemberViews.SubmitReviewPreservesValid | Library-Management-master/myapp/views.py:174-180 | submitting a review keeps the store valid, so every stored review count still equals the number of that book's reviews |
| MemberViews.SubmitReviewCountsOneReview | Library-Management-master/myapp/views.py:176-179 | after a submission the reviewed book has exactly one more review and one more in its count; other books' counts do not move |
| MemberViews.OrdersOf | Library-Management-master/myapp/views.py:314 | the member's orders are exactly the stored orders whose member is that user |
| MemberViews.OrdersOfCounts | Library-Management-master/myapp/views.py:314 | each of the member's orders appears as many times as it is stored, and no other order appears |
| MemberViews.OrdersOfAppend | Library-Management-master/myapp/views.py:314 | the member's orders of two runs of the table are the member's orders of the first run followed by those of the second, so the model's chosen table order is kept |
| MemberViews.OrderLine | Library-Management-master/myapp/views.py:321-327 | the title string built for one order equals the reference join of its book titles |
| MemberViews.ListOrders | Library-Management-master/myapp/views.py:317-330 | one entry per order, in order, each pairing the order with its book titles joined by ", " |
| MemberViews.MyOrders | Library-Management-master/myapp/views.py:308-339 | a user without a member record gets "no available orders"; otherwise the list has one entry per order of that member, in the table order the model chooses, each with its titles joined by ", " |
| MemberViews.PlacedOrderIsListed | Library-Management-master/myapp/views.py:314-330 | after an order is placed, the member's order list is the previous list plus that order paired with its joined titles |
| MemberViews.BooksTitle | Library-Management-master/myapp/models.py:60-64 | the borrowed titles joined by ", " with no trailing separator, and "" when nothing is borrowed |
| Admin.IncreaseTenDollars | Library-Management-master/myapp/admin.py:7-11 | each selected book's price becomes its old price plus ten dollars with all other fields kept; books outside the selection are unchanged |
| Admin.IncreaseTwiceAddsTwenty | Library-Management-master/myapp/admin.py:8-11 | applying the action twice adds twenty dollars to each selected price and nothing else |
| Admin.IncreaseCanLeaveBounds | Library-Management-master/myapp/admin.py:9-10 | the increase is not clamped: every selected book with a valid price above 990 dollars ends above 1000 dollars, which the price validators would reject |
| Admin.EmptySelectionChangesNothing | Library-Management-master/myapp/admin.py:7-11 | an empty selection leaves the book table unchanged |
| Admin.IncreasePreservesValid | Library-Management-master/myapp/admin.py:8-11 | the action keeps the store valid: ids and review counts are untouched |

## Left out

- Login, logout, registration and sessions (`user_login`, `user_logout`, `register`). These are the framework's authentication, session and password checks. This includes the `last_login` marker and its 3600-second expiry.
- The index view's read of `last_login` from the session, for the same reason.
- URL routing and the redirect of anonymous users to the login page. `urls.py` is a static table.
- Template rendering, HTTP responses, redirects and logging. Each view returns an outcome value instead.
- Requests that only show an empty form on search and order (GET). They neither read nor change the store. A GET on the review page does read the member, and `OpenReview` models it.
- The function-based `index` view (views.py:20-29). It computes the same list as `IndexView.get`, which `RecentBooks` models.
- The function-based `detail` view (views.py:50-58). It is only the lookup that `BookDetail` models.
- The `except Book.DoesNotExist` branches. The lookup raises a not-found error instead, so they never run. Missing books give one abstract not-found outcome.
- The generic `except Exception` handlers. Storage failures are not modelled.
- Floating-point division. Averages are exact (total, count) pairs.
- The unguarded race between saving a review and incrementing `num_reviews`. This is a concurrency concern; the model is sequential.
- E-mail syntax and the e-mail field's length. These are framework validation, taken as the `isEmail` parameter.
- Whitespace stripping by the form framework's text and e-mail fields: the search name, the review's reviewer and the review's comments are kept as submitted. Which characters count as whitespace is the framework's Unicode rule.
- Sub-cent amounts. The price field's two-decimal-place check is not modelled because prices are whole cents.
- Profile image upload and storage. This is I/O.
- Creating and editing publishers, books, members, orders and reviews through the admin panel. This is generic CRUD. It also covers the text-length limits of model fields, which only those forms check.
- The order of books inside an order, in `Member.borrowed_books`, and so in the title strings of `my_orders` and `books_title`. The framework's queries return these rows in no specified order; the model keeps the order in which the books were first added.
- The order of a member's orders in `my_orders` and of a book's reviews on the detail page and in the review check. These queries have no ordering; the model lists rows in table order, and `SumRatingsPermutation` shows the average does not depend on that choice.
- Field defaults (category 'S', 100 pages, no reviews, status Regular, city Windsor, province ON, country USA, order type Borrow, auto-renew on, the member's last renewal date) and the `Publisher` record. They only apply when rows are created through the admin panel or registration, which are not part of this model; a book refers to its publisher by id. The order date and review date defaults are modelled as `today`.
- CatalogueViews.RecentBooks: requires unique book ids, which the database guarantees for primary keys.
- CatalogueViews.CheckReviews: requires unique book ids, for the same reason.

=== FILE: admin.dfy ===
/** The back-office bulk action on books: raise the price of every selected
    book by ten dollars. */
module Admin {
  import opened Models
  import opened Tables

  /** Ten dollars, in cents. */
  const PriceIncrease: Cents := 1000

  /** `increase_10_dollars`: each selected row gets its price plus ten
      dollars and keeps every other field; rows outside the selection are
      untouched. The new price is not checked against the price bounds. */
  function IncreaseTenDollars(books: seq<Book>, selected: set<BookId>): (r: seq<Book>)
    ensures |r| == |books|
    ensures forall i :: 0 <= i < |books| && books[i].id in selected ==>
              r[i] == books[i].(price := books[i].price + PriceIncrease)
    ensures forall i :: 0 <= i < |books| && books[i].id !in selected ==> r[i] == books[i]
  {
    if |books| == 0 then []
    else
      var head := if books[0].id in selected then books[0].(price := books[0].price + PriceIncrease) else books[0];
      [head] + IncreaseTenDollars(books[1..], selected)
  }

  /** An empty selection leaves the table as it was. */
  lemma EmptySelectionChangesNothing(books: seq<Book>)
    ensures IncreaseTenDollars(books, {}) == books
  {
  }

  /** Applying the action twice raises each selected price by twenty dollars. */
  lemma IncreaseTwiceAddsTwenty(books: seq<Book>, selected: set<BookId>)
    ensures var twice := IncreaseTenDollars(IncreaseTenDollars(books, selected), selected);
            && |twice| == |books|
            && (forall i :: 0 <= i < |books| && books[i].id in selected ==>
                  twice[i] == books[i].(price := books[i].price + 2 * PriceIncrease))
            && (forall i :: 0 <= i < |books| && books[i].id !in selected ==> twice[i] == books[i])
  {
    var once := IncreaseTenDollars(books, selected);
    assert forall i :: 0 <= i < |books| ==> once[i].id == books[i].id;
  }

  /** The action does not clamp: every selected book priced above 990
      dollars leaves the 1000-dollar bound the price field enforces, even
      when its old price was valid. */
  lemma IncreaseCanLeaveBounds(books: seq<Book>, selected: set<BookId>, i: nat)
    requires i < |books| && books[i].id in selected
    requires ValidPrice(books[i].price) && books[i].price > MaxPrice - PriceIncrease
    ensures !ValidPrice(IncreaseTenDollars(books, selected)[i].price)
    ensures IncreaseTenDollars(books, selected)[i].price > MaxPrice
  {
  }

  /** The action keeps the store valid: it changes no id and no review count. */
  lemma IncreasePreservesValid(s: Store, selected: set<BookId>)
    requires Valid(s)
    ensures Valid(s.(books := IncreaseTenDollars(s.books, selected)))
  {
    var books' := IncreaseTenDollars(s.books, selected);
    assert forall i :: 0 <= i < |s.books| ==> books'[i].id == s.books[i].id && books'[i].numReviews == s.books[i].numReviews;
  }
}

=== FILE: catalogue_views.dfy ===
/** The read-only views over the catalogue: the index listing, the book
    detail with its average rating, the search results, and the review
    check. */
module CatalogueViews {
  import opened Wrappers
  import opened Models
  import opened Tables
  import opened Forms

  /** The index lists this many books. */
  const PageSize: nat := 10

  // ---------------------------------------------------------------------
  // Index: the first ten books by id
  // ---------------------------------------------------------------------

  /** The book with the smallest id above `last`, if any. */
  method NextAfter(books: seq<Book>, last: int) returns (next: Option<Book>)
    ensures next.Some? ==> next.value in books && next.value.id > last
    ensures next.Some? ==> forall b :: b in books && b.id > last ==> next.value.id <= b.id
    ensures next.None? ==> forall b :: b in books ==> b.id <= last
  {
    next := None;
    for i := 0 to |books|
      invariant next.Some? ==> next.value in books && next.value.id > last
      invariant next.Some? ==> forall j :: 0 <= j < i && books[j].id > last ==> next.value.id <= books[j].id
      invariant next.None? ==> forall j :: 0 <= j < i ==> books[j].id <= last
    {
      var b := books[i];
      if b.id > last && (next.None? || b.id < next.value.id) {
        next := Some(b);
      }
    }
  }

  /** The book list of the index page: the books ordered by id, first ten.
      The result holds at most ten books of the table in strictly
      increasing id order, and any book left out means the page is full and
      that book's id is larger than every listed one. */
  method RecentBooks(books: seq<Book>) returns (list: seq<Book>)
    requires UniqueIds(books)
    ensures |list| <= PageSize
    ensures forall i :: 0 <= i < |list| ==> list[i] in books
    ensures forall i, j :: 0 <= i < j < |list| ==> list[i].id < list[j].id
    ensures forall b :: b in books && b !in list ==>
              |list| == PageSize && forall i :: 0 <= i < |list| ==> list[i].id < b.id
  {
    list := [];
    var last := -1;
    var done := false;
    while |list| < PageSize && !done
      invariant |list| <= PageSize
      invariant forall i :: 0 <= i < |list| ==> list[i] in books
      invariant forall i, j :: 0 <= i < j < |list| ==> list[i].id < list[j].id
      invariant forall i :: 0 <= i < |list| ==> list[i].id <= last
      invariant forall b :: b in books && b.id <= last ==> b in list
      invariant done ==> forall b :: b in books ==> b in list
      decreases PageSize - |list|, if done then 0 else 1
    {
      var next := NextAfter(books, last);
      match next
      case None =>
        done := true;
      case Some(b) =>
        forall c | c in books && c.id <= b.id
          ensures c in list + [b]
        {
          if c.id > last {
            SameIdSameBook(books, c, b);
          }
        }
        list := list + [b];
        last := b.id;
    }
  }

  // ---------------------------------------------------------------------
  // Average rating
  // ---------------------------------------------------------------------

  /** An exact average: `NoRating` is the -1 the pages receive when there is
      nothing to average, `Mean` is total / count. */
  datatype Average = NoRating | Mean(total: int, count: nat)

  function SumRatings(reviews: seq<Review>): (total: int)
    ensures (forall i :: 0 <= i < |reviews| ==> MinRating <= reviews[i].rating <= MaxRating)
            ==> MinRating * |reviews| <= total <= MaxRating * |reviews|
  {
    if |reviews| == 0 then 0
    else SumRatings(reviews[..|reviews| - 1]) + reviews[|reviews| - 1].rating
  }

  /** The sum of two runs of reviews is the sum of their sums. */
  lemma {:induction false} SumRatingsAppend(xs: seq<Review>, ys: seq<Review>)
    ensures SumRatings(xs + ys) == SumRatings(xs) + SumRatings(ys)
  {
    if |ys| == 0 {
      assert xs + ys == xs;
    } else {
      var init := ys[..|ys| - 1];
      assert (xs + ys)[..|xs + ys| - 1] == xs + init;
      assert (xs + ys)[|xs + ys| - 1] == ys[|ys| - 1];
      SumRatingsAppend(xs, init);
    }
  }

  lemma MultisetCancel<T>(a: multiset<T>, b: multiset<T>, x: T)
    requires a + multiset{x} == b + multiset{x}
    ensures a == b
  {
    assert forall z :: a[z] == (a + multiset{x})[z] - (if z == x then 1 else 0);
    assert forall z :: b[z] == (b + multiset{x})[z] - (if z == x then 1 else 0);
  }

  /** The total does not depend on the order the rows come back in: any
      rearrangement of the same reviews has the same sum. */
  lemma {:induction false} SumRatingsPermutation(xs: seq<Review>, ys: seq<Review>)
    requires multiset(xs) == multiset(ys)
    ensures SumRatings(xs) == SumRatings(ys)
    decreases |xs|
  {
    if |xs| == 0 {
      assert |ys| == |multiset(ys)| == 0;
    } else {
      var init := xs[..|xs| - 1];
      var x := xs[|xs| - 1];
      assert xs == init + [x];
      assert x in multiset(ys);
      var k :| 0 <= k < |ys| && ys[k] == x;
      var front, back := ys[..k], ys[k + 1..];
      assert ys == front + [x] + back;
      assert multiset(xs) == multiset(init) + multiset{x};
      assert multiset(ys) == multiset(front + back) + multiset{x} by {
        assert front + [x] + back == (front + back)[..|front|] + [x] + (front + back)[|front|..];
      }
      MultisetCancel(multiset(init), multiset(front + back), x);
      SumRatingsPermutation(init, front + back);
      SumRatingsAppend(front + [x], back);
      SumRatingsAppend(front, [x]);
      SumRatingsAppend(front, back);
    }
  }

  /** The average of the given ratings; no reviews gives the sentinel. When
      every rating is in range, so is the mean: count <= total <= 5 * count. */
  function AverageOf(reviews: seq<Review>): (a: Average)
    ensures a == NoRating <==> |reviews| == 0
    ensures a.Mean? ==> a.count == |reviews| && a.count > 0
    ensures a.Mean? ==> a.total == SumRatings(reviews)
    ensures a.Mean? && (forall i :: 0 <= i < |reviews| ==> MinRating <= reviews[i].rating <= MaxRating)
            ==> MinRating * a.count <= a.total <= MaxRating * a.count
  {
    if |reviews| == 0 then NoRating else Mean(SumRatings(reviews), |reviews|)
  }

  // ---------------------------------------------------------------------
  // Book detail
  // ---------------------------------------------------------------------

  datatype Detail = Detail(book: Book, reviews: seq<Review>, average: Average)

  datatype ViewError = NotFound

  /** The detail page of a book: the book, its reviews and their average. */
  function BookDetail(s: Store, id: BookId): (r: Result<Detail, ViewError>)
    ensures r.Err? <==> forall b :: b in s.books ==> b.id != id
    ensures r.Ok? ==> r.value.book in s.books && r.value.book.id == id
    ensures r.Ok? ==> forall rv :: rv in r.value.reviews <==> rv in s.reviews && rv.book == id
    ensures r.Ok? ==> (r.value.average == NoRating <==> forall rv :: rv in s.reviews ==> rv.book != id)
    ensures r.Ok? ==> r.value.reviews == ReviewsOf(s.reviews, id) && r.value.average == AverageOf(r.value.reviews)
  {
    match FindBook(s.books, id)
    case None => Err(NotFound)
    case Some(book) =>
      var reviews := ReviewsOf(s.reviews, id);
      assert reviews != [] ==> reviews[0] in reviews;
      Ok(Detail(book, reviews, AverageOf(reviews)))
  }

  /** In a valid store the detail average of a reviewed book lies in [1, 5]. */
  lemma DetailAverageInRange(s: Store, id: BookId)
    requires Valid(s)
    requires BookDetail(s, id).Ok? && BookDetail(s, id).value.average.Mean?
    ensures var a := BookDetail(s, id).value.average;
            MinRating * a.count <= a.total <= MaxRating * a.count
  {
    var reviews := ReviewsOf(s.reviews, id);
    forall i | 0 <= i < |reviews|
      ensures MinRating <= reviews[i].rating <= MaxRating
    {
      assert reviews[i] in s.reviews;
    }
  }

  /** The detail average is the sum of the book's ratings over their number,
      whatever order the review rows are read in. */
  lemma DetailAverageIgnoresRowOrder(s: Store, id: BookId, rows: seq<Review>)
    requires BookDetail(s, id).Ok?
    requires multiset(rows) == multiset(ReviewsOf(s.reviews, id))
    ensures var a := BookDetail(s, id).value.average;
            (a == NoRating <==> |rows| == 0)
            && (a.Mean? ==> a.total == SumRatings(rows) && a.count == |rows|)
  {
    SumRatingsPermutation(rows, ReviewsOf(s.reviews, id));
    assert |rows| == |multiset(rows)|;
  }

  // ---------------------------------------------------------------------
  // Search
  // ---------------------------------------------------------------------

  predicate Matches(b: Book, maxPrice: Cents, category: Option<Category>)
  {
    b.price <= maxPrice && (category.None? || b.category == category.value)
  }

  /** The books at or below the price bound, and in the category when one is
      chosen, in table order. */
  function SelectBooks(books: seq<Book>, maxPrice: Cents, category: Option<Category>): (r: seq<Book>)
    ensures forall b :: b in r <==> b in books && Matches(b, maxPrice, category)
    ensures |r| <= |books|
  {
    if |books| == 0 then []
    else
      var rest := SelectBooks(books[1..], maxPrice, category);
      if Matches(books[0], maxPrice, category) then [books[0]] + rest else rest
  }

  /** Each matching row is listed as often as it is stored, and no other row
      is listed. */
  lemma {:induction false} SelectBooksCounts(books: seq<Book>, maxPrice: Cents, category: Option<Category>)
    ensures forall b :: multiset(SelectBooks(books, maxPrice, category))[b]
                        == if Matches(b, maxPrice, category) then multiset(books)[b] else 0
  {
    if |books| > 0 {
      SelectBooksCounts(books[1..], maxPrice, category);
      assert books == [books[0]] + books[1..];
    }
  }

  datatype SearchOutcome = SearchForm(errors: seq<FieldError>) | Results(query: SearchQuery, books: seq<Book>)

  /** A search submission: an invalid form is shown again with its errors,
      otherwise the matching books are listed. The name is only echoed. */
  function FindBooks(s: Store, input: SearchInput): (r: SearchOutcome)
    ensures r.SearchForm? <==> CleanSearch(input).Err?
    ensures r.Results? ==> r.query == CleanSearch(input).value
    ensures r.Results? ==> r.books == SelectBooks(s.books, r.query.maxPrice, r.query.category)
    ensures r.Results? && input.category == "" ==>
              forall b :: b in r.books <==> b in s.books && b.price <= input.maxPrice.value
    ensures r.Results? && input.category != "" ==>
              forall b :: b in r.books <==>
                b in s.books && b.price <= input.maxPrice.value && CategoryCode(b.category) == input.category
  {
    match CleanSearch(input)
    case Err(errors) => SearchForm(errors)
    case Ok(query) =>
      var found := SelectBooks(s.books, query.maxPrice, query.category);
      CategoryCodeInjective();
      Results(query, found)
  }

  // ---------------------------------------------------------------------
  // Review check
  // ---------------------------------------------------------------------

  datatype CheckOutcome = Checked(book: Book, average: Average) | NoReviewsAvailable | BookNotFound

  /** The review check of a book: a zero stored count gives the sentinel
      without reading reviews; a positive count with no reviews to average
      is the division-by-zero outcome. */
  function CheckReviews(s: Store, id: BookId): (r: CheckOutcome)
    requires UniqueIds(s.books)
    ensures r == BookNotFound <==> forall b :: b in s.books ==> b.id != id
    ensures r.Checked? ==> r.book in s.books && r.book.id == id
    ensures r.Checked? && r.book.numReviews == 0 ==> r.average == NoRating
    ensures r.Checked? && r.book.numReviews > 0 ==> r.average == AverageOf(ReviewsOf(s.reviews, id)) && r.average.Mean?
    ensures r == NoReviewsAvailable <==>
              exists b :: b in s.books && b.id == id && b.numReviews > 0 && ReviewsOf(s.reviews, id) == []
  {
    FindBookIsUnique(s.books, id);
    match FindBook(s.books, id)
    case None => BookNotFound
    case Some(book) =>
      if book.numReviews == 0 then Checked(book, NoRating)
      else
        var reviews := ReviewsOf(s.reviews, id);
        if |reviews| == 0 then NoReviewsAvailable
        else Checked(book, AverageOf(reviews))
  }

  /** When stored counts match the review table, the check never hits the
      division by zero and reports the same average as the detail page. */
  lemma CheckAgreesWithDetail(s: Store, id: BookId)
    requires Valid(s)
    ensures CheckReviews(s, id) != NoReviewsAvailable
    ensures CheckReviews(s, id).Checked? <==> BookDetail(s, id).Ok?
    ensures CheckReviews(s, id).Checked? ==> CheckReviews(s, id).average == BookDetail(s, id).value.average
  {
    match FindBook(s.books, id)
    case None =>
    case Some(book) =>
      var i :| 0 <= i < |s.books| && s.books[i] == book;
      assert book.numReviews == |ReviewsOf(s.reviews, id)|;
  }
}

=== FILE: forms.dfy ===
/** Field validation of the three member-facing forms: the book search, the
    order form and the review form. Each cleaner returns either the cleaned
    value or every field error found, as the form framework reports all
    failing fields at once. */
module Forms {
  import opened Wrappers
  import opened Models
  import opened Tables

  datatype Field = NameField | CategoryField | MaxPriceField
                 | BooksField | OrderTypeField
                 | ReviewerField | BookField | RatingField

  datatype FieldError =
    | Required(field: Field)
    | TooLong(field: Field)
    | BelowMinimum(field: Field)
    | InvalidChoice(field: Field)
    | InvalidValue(field: Field)
    | Message(field: Field, text: string)

  // ---------------------------------------------------------------------
  // Search form
  // ---------------------------------------------------------------------

  const MaxNameLength: nat := 100

  /** A submitted search. `category` is "" when no radio button is chosen;
      `maxPrice` is the bound in whole cents (rounded down, which keeps every
      comparison with a whole-cent price exact) and None when left blank. */
  datatype SearchInput = SearchInput(name: string, category: string, maxPrice: Option<Cents>)

  datatype SearchQuery = SearchQuery(name: string, category: Option<Category>, maxPrice: Cents)

  function CleanSearch(input: SearchInput): (r: Result<SearchQuery, seq<FieldError>>)
    ensures r.Ok? <==>
              && |input.name| <= MaxNameLength
              && (input.category == "" || input.category in CategoryCodes)
              && input.maxPrice.Some? && input.maxPrice.value >= 0
    ensures r.Ok? ==> r.value.name == input.name && r.value.maxPrice == input.maxPrice.value
    ensures r.Ok? ==> (r.value.category.None? <==> input.category == "")
    ensures r.Ok? && r.value.category.Some? ==> CategoryCode(r.value.category.value) == input.category
    ensures r.Err? ==> (TooLong(NameField) in r.error <==> |input.name| > MaxNameLength)
    ensures r.Err? ==> (Required(MaxPriceField) in r.error <==> input.maxPrice.None?)
    ensures r.Err? ==> (BelowMinimum(MaxPriceField) in r.error <==>
                          input.maxPrice.Some? && input.maxPrice.value < 0)
  {
    var category := if input.category == "" then None else CategoryFromCode(input.category);
    var errors :=
      (if |input.name| > MaxNameLength then [TooLong(NameField)] else [])
      + (if input.category != "" && category.None? then [InvalidChoice(CategoryField)] else [])
      + (match input.maxPrice
         case None => [Required(MaxPriceField)]
         case Some(p) => if p < 0 then [BelowMinimum(MaxPriceField)] else []);
    if errors == [] then Ok(SearchQuery(input.name, category, input.maxPrice.value))
    else Err(errors)
  }

  // ---------------------------------------------------------------------
  // Order form: only the books and the order type come from the request
  // ---------------------------------------------------------------------

  datatype OrderInput = OrderInput(books: seq<BookId>, orderType: Option<int>)

  /** The chosen books, each once, in the order first chosen. */
  function Dedup(ids: seq<BookId>): (r: seq<BookId>)
    ensures NoDup(r)
    ensures forall id :: id in r <==> id in ids
  {
    if |ids| == 0 then []
    else
      var init := Dedup(ids[..|ids| - 1]);
      var last := ids[|ids| - 1];
      if last in init then init else init + [last]
  }

  function CleanOrder(books: seq<Book>, input: OrderInput): (r: Result<(seq<BookId>, OrderType), seq<FieldError>>)
    ensures r.Ok? <==>
              && |input.books| > 0
              && (forall id :: id in input.books ==> HasBook(books, id))
              && input.orderType.Some? && OrderTypeFromCode(input.orderType.value).Some?
    ensures r.Ok? ==> NoDup(r.value.0) && (forall id :: id in r.value.0 <==> id in input.books)
    ensures r.Ok? ==> OrderTypeCode(r.value.1) == input.orderType.value
    ensures r.Err? ==> (Required(BooksField) in r.error <==> |input.books| == 0)
    ensures r.Err? ==> (Required(OrderTypeField) in r.error <==> input.orderType.None?)
  {
    var bookErrors :=
      if |input.books| == 0 then [Required(BooksField)]
      else if exists id :: id in input.books && !HasBook(books, id) then [InvalidChoice(BooksField)]
      else [];
    var kind := match input.orderType
                case None => None
                case Some(code) => OrderTypeFromCode(code);
    var typeErrors :=
      if input.orderType.None? then [Required(OrderTypeField)]
      else if kind.None? then [InvalidChoice(OrderTypeField)]
      else [];
    var errors := bookErrors + typeErrors;
    if errors == [] then Ok((Dedup(input.books), kind.value)) else Err(errors)
  }

  // ---------------------------------------------------------------------
  // Review form
  // ---------------------------------------------------------------------

  const RatingRangeMessage: string := "You must enter a rating between 1 and 5!"

  /** `clean_rating`: the explicit re-check of a rating the field accepted. */
  function CleanRating(rating: int): (r: Result<int, string>)
    ensures r.Ok? <==> MinRating <= rating <= MaxRating
    ensures r.Ok? ==> r.value == rating
    ensures r.Err? ==> r.error == RatingRangeMessage
  {
    if rating < 1 || rating > 5 then Err(RatingRangeMessage) else Ok(rating)
  }

  /** The whole rating field: it is required, the positive-integer field
      admits nothing below 0, and only then does `clean_rating` run. */
  function CleanRatingField(raw: Option<int>): (r: Result<int, FieldError>)
    ensures r.Ok? <==> raw.Some? && MinRating <= raw.value <= MaxRating
    ensures r.Ok? ==> r.value == raw.value
    ensures raw.Some? && (raw.value == 0 || raw.value > MaxRating)
            ==> r == Err(Message(RatingField, RatingRangeMessage))
  {
    match raw
    case None => Err(Required(RatingField))
    case Some(v) =>
      if v < 0 then Err(BelowMinimum(RatingField))
      else match CleanRating(v)
        case Ok(rating) => Ok(rating)
        case Err(text) => Err(Message(RatingField, text))
  }

  datatype ReviewInput = ReviewInput(reviewer: string, book: Option<BookId>, rating: Option<int>, comments: string)

  /** Cleans a review submission into the review to be stored. Whether an
      address is a syntactically valid e-mail is the framework's check,
      passed in as `isEmail`; `today` is the default review date. */
  function CleanReview(books: seq<Book>, input: ReviewInput, isEmail: string -> bool, today: Date)
    : (r: Result<Review, seq<FieldError>>)
    ensures r.Ok? <==>
              && input.reviewer != "" && isEmail(input.reviewer)
              && input.book.Some? && HasBook(books, input.book.value)
              && input.rating.Some? && MinRating <= input.rating.value <= MaxRating
    ensures r.Ok? ==> r.value == Review(input.reviewer, input.book.value, input.rating.value, input.comments, today)
    ensures r.Err? && input.rating.Some? && (input.rating.value == 0 || input.rating.value > MaxRating)
            ==> Message(RatingField, RatingRangeMessage) in r.error
  {
    var reviewerErrors :=
      if input.reviewer == "" then [Required(ReviewerField)]
      else if !isEmail(input.reviewer) then [InvalidValue(ReviewerField)]
      else [];
    var bookErrors :=
      match input.book
      case None => [Required(BookField)]
      case Some(id) => if HasBook(books, id) then [] else [InvalidChoice(BookField)];
    var rating := CleanRatingField(input.rating);
    var ratingErrors := if rating.Err? then [rating.error] else [];
    var errors := reviewerErrors + bookErrors + ratingErrors;
    if errors == [] then Ok(Review(input.reviewer, input.book.value, rating.value, input.comments, today))
    else Err(errors)
  }
}

=== FILE: member_views.dfy ===
/** The views a logged-in member uses: placing an order, submitting a
    review, and listing their orders; and the borrowed-titles column of the
    member list. `user` is the primary key of the authenticated account. */
module MemberViews {
  import opened Wrappers
  import opened Models
  import opened Tables
  import opened Titles
  import opened Forms

  // ---------------------------------------------------------------------
  // Placing an order
  // ---------------------------------------------------------------------

  /** Adds each id to the relation unless it is already there. */
  function AddAll(borrowed: seq<BookId>, ids: seq<BookId>): (r: seq<BookId>)
    ensures |borrowed| <= |r| && r[..|borrowed|] == borrowed
    ensures forall id :: id in r <==> id in borrowed || id in ids
    ensures NoDup(borrowed) ==> NoDup(r)
    decreases |ids|
  {
    if |ids| == 0 then borrowed
    else
      var next := if ids[0] in borrowed then borrowed else borrowed + [ids[0]];
      var r := AddAll(next, ids[1..]);
      assert r[..|borrowed|] == r[..|next|][..|borrowed|];
      r
  }

  datatype PlaceOutcome = Placed(order: Order) | OrderForm(errors: seq<FieldError>) | MemberNotFound

  /** An order submission. The form supplies only the books and the type;
      the order belongs to the authenticated member. A borrow adds the
      ordered books to the member's borrowed books; a purchase leaves them
      alone; nothing is ever removed. */
  function PlaceOrder(s: Store, user: MemberId, input: OrderInput, today: Date): (r: (PlaceOutcome, Store))
    ensures r.0.OrderForm? <==> CleanOrder(s.books, input).Err?
    ensures r.0 == MemberNotFound <==> CleanOrder(s.books, input).Ok? && user !in s.members
    ensures !r.0.Placed? ==> r.1 == s
    ensures r.0.Placed? ==>
              && user in s.members
              && r.0.order.member == user
              && r.0.order.orderDate == today
              && OrderTypeCode(r.0.order.orderType) == input.orderType.value
              && NoDup(r.0.order.books)
              && (forall id :: id in r.0.order.books <==> id in input.books)
              && r.1.orders == s.orders + [r.0.order]
              && r.1.books == s.books
              && r.1.reviews == s.reviews
              && r.1.members.Keys == s.members.Keys
              && (forall u :: u in s.members && u != user ==> r.1.members[u] == s.members[u])
    ensures r.0.Placed? ==>
              var before := s.members[user].borrowed;
              var after := r.1.members[user].borrowed;
              && r.1.members[user] == s.members[user].(borrowed := after)
              && |before| <= |after| && after[..|before|] == before
              && (r.0.order.orderType == Borrow ==> forall id :: id in after <==> id in before || id in input.books)
              && (r.0.order.orderType == Purchase ==> after == before)
  {
    match CleanOrder(s.books, input)
    case Err(errors) => (OrderForm(errors), s)
    case Ok((books, kind)) =>
      if user !in s.members then (MemberNotFound, s)
      else
        var order := Order(user, books, kind, today);
        var member := s.members[user];
        var member' := if OrderTypeCode(kind) == 1 then member.(borrowed := AddAll(member.borrowed, books)) else member;
        (Placed(order), s.(orders := s.orders + [order], members := s.members[user := member']))
  }

  /** Placing an order keeps the store valid. */
  lemma PlaceOrderPreservesValid(s: Store, user: MemberId, input: OrderInput, today: Date)
    requires Valid(s)
    ensures Valid(PlaceOrder(s, user, input, today).1)
  {
    var r := PlaceOrder(s, user, input, today);
    if r.0.Placed? {
      var s' := r.1;
      forall u | u in s'.members
        ensures NoDup(s'.members[u].borrowed)
      {
        if u == user {
          assert NoDup(s.members[user].borrowed);
        }
      }
      forall i | 0 <= i < |s'.orders|
        ensures NoDup(s'.orders[i].books)
      {
        if i < |s.orders| {
          assert s'.orders[i] == s.orders[i];
        }
      }
    }
  }

  // ---------------------------------------------------------------------
  // Submitting a review
  // ---------------------------------------------------------------------

  /** Only Regular (1) and Premium (2) members may review. */
  function CanReview(m: Member): (ok: bool)
    ensures ok <==> m.status != Guest
  {
    var code := StatusCode(m.status);
    code == 1 || code == 2
  }

  /** Adds one to the review count of the book rows with the given id. */
  function IncrementReviews(books: seq<Book>, id: BookId): (r: seq<Book>)
    ensures |r| == |books|
    ensures forall i :: 0 <= i < |books| && books[i].id == id ==>
              r[i] == books[i].(numReviews := books[i].numReviews + 1)
    ensures forall i :: 0 <= i < |books| && books[i].id != id ==> r[i] == books[i]
  {
    if |books| == 0 then []
    else
      var head := if books[0].id == id then books[0].(numReviews := books[0].numReviews + 1) else books[0];
      [head] + IncrementReviews(books[1..], id)
  }

  datatype ReviewOutcome = Submitted(review: Review) | NotEligible | ReviewForm(errors: seq<FieldError>)

  /** A review submission. A user who is not a member, or a Guest member, is
      not eligible; an invalid form is shown again; otherwise the review is
      stored and its book's review count goes up by one. Only a submission
      changes the store. */
  function SubmitReview(s: Store, user: MemberId, input: ReviewInput, isEmail: string -> bool, today: Date)
    : (r: (ReviewOutcome, Store))
    ensures r.0 == NotEligible <==> user !in s.members || s.members[user].status == Guest
    ensures r.0.ReviewForm? <==>
              user in s.members && s.members[user].status != Guest
              && CleanReview(s.books, input, isEmail, today).Err?
    ensures !r.0.Submitted? ==> r.1 == s
    ensures r.0.Submitted? ==>
              var rv := r.0.review;
              && MinRating <= rv.rating <= MaxRating
              && HasBook(s.books, rv.book)
              && rv == CleanReview(s.books, input, isEmail, today).value
              && rv.reviewer == input.reviewer && Some(rv.book) == input.book
              && Some(rv.rating) == input.rating && rv.comments == input.comments && rv.date == today
              && r.1.reviews == s.reviews + [rv]
              && r.1.members == s.members
              && r.1.orders == s.orders
              && |r.1.books| == |s.books|
              && (forall i :: 0 <= i < |s.books| && s.books[i].id == rv.book ==>
                    r.1.books[i] == s.books[i].(numReviews := s.books[i].numReviews + 1))
              && (forall i :: 0 <= i < |s.books| && s.books[i].id != rv.book ==> r.1.books[i] == s.books[i])
  {
    if user !in s.members || !CanReview(s.members[user]) then (NotEligible, s)
    else
      match CleanReview(s.books, input, isEmail, today)
      case Err(errors) => (ReviewForm(errors), s)
      case Ok(review) =>
        (Submitted(review), s.(reviews := s.reviews + [review], books := IncrementReviews(s.books, review.book)))
  }

  /** Raising a review count changes no key. */
  lemma IncrementKeepsIds(books: seq<Book>, id: BookId)
    requires UniqueIds(books)
    ensures UniqueIds(IncrementReviews(books, id))
  {
    var books' := IncrementReviews(books, id);
    assert forall i :: 0 <= i < |books| ==> books'[i].id == books[i].id;
  }

  /** Storing one more review and raising its book's count by one keeps every
      stored count equal to the number of that book's reviews. */
  lemma IncrementKeepsCountsConsistent(books: seq<Book>, reviews: seq<Review>, rv: Review)
    requires ReviewCountsConsistent(books, reviews)
    ensures ReviewCountsConsistent(IncrementReviews(books, rv.book), reviews + [rv])
  {
    var books' := IncrementReviews(books, rv.book);
    forall i | 0 <= i < |books'|
      ensures books'[i].numReviews == |ReviewsOf(reviews + [rv], books'[i].id)|
    {
      ReviewsOfAppend(reviews, rv, books[i].id);
    }
  }

  /** Opening the review page without submitting: the member lookup and
      the eligibility test run first, so a non-member or a Guest gets the
      "not eligible" page and anyone else an empty form. */
  function OpenReview(s: Store, user: MemberId): (r: ReviewOutcome)
    ensures r == NotEligible <==> user !in s.members || s.members[user].status == Guest
    ensures r != NotEligible ==> r == ReviewForm([])
  {
    if user !in s.members || !CanReview(s.members[user]) then NotEligible else ReviewForm([])
  }

  /** Opening the page and submitting to it refuse exactly the same users. */
  lemma OpenAndSubmitAgreeOnEligibility(s: Store, user: MemberId, input: ReviewInput, isEmail: string -> bool, today: Date)
    ensures OpenReview(s, user) == NotEligible <==> SubmitReview(s, user, input, isEmail, today).0 == NotEligible
  {
  }

  /** Submitting a review keeps the store valid; in particular every book's
      stored review count still equals its number of reviews. */
  lemma SubmitReviewPreservesValid(s: Store, user: MemberId, input: ReviewInput, isEmail: string -> bool, today: Date)
    requires Valid(s)
    ensures Valid(SubmitReview(s, user, input, isEmail, today).1)
  {
    var r := SubmitReview(s, user, input, isEmail, today);
    if r.0.Submitted? {
      var rv := r.0.review;
      var s' := r.1;
      IncrementKeepsIds(s.books, rv.book);
      IncrementKeepsCountsConsistent(s.books, s.reviews, rv);
      forall i | 0 <= i < |s'.reviews|
        ensures MinRating <= s'.reviews[i].rating <= MaxRating
      {
        if i < |s.reviews| {
          assert s'.reviews[i] == s.reviews[i];
        }
      }
    }
  }

  /** The reviewed book's count rises by exactly one, matching the one new
      review, and no other book's count moves. */
  lemma SubmitReviewCountsOneReview(s: Store, user: MemberId, input: ReviewInput, isEmail: string -> bool, today: Date, i: nat)
    requires Valid(s)
    requires i < |s.books|
    ensures var r := SubmitReview(s, user, input, isEmail, today);
            r.0.Submitted? ==>
              var target := r.0.review.book;
              && |ReviewsOf(r.1.reviews, target)| == |ReviewsOf(s.reviews, target)| + 1
              && (s.books[i].id == target ==> r.1.books[i].numReviews == s.books[i].numReviews + 1)
              && (s.books[i].id != target ==> r.1.books[i].numReviews == s.books[i].numReviews)
  {
    var r := SubmitReview(s, user, input, isEmail, today);
    if r.0.Submitted? {
      ReviewsOfAppend(s.reviews, r.0.review, r.0.review.book);
    }
  }

  // ---------------------------------------------------------------------
  // Listing a member's orders; the borrowed-titles column
  // ---------------------------------------------------------------------

  /** The orders belonging to the member, in table order. The query has no
      ordering of its own; table order is the model's choice. */
  function OrdersOf(orders: seq<Order>, user: MemberId): (r: seq<Order>)
    ensures forall o :: o in r <==> o in orders && o.member == user
  {
    if |orders| == 0 then []
    else
      var last := orders[|orders| - 1];
      OrdersOf(orders[..|orders| - 1], user) + (if last.member == user then [last] else [])
  }

  /** Every order of the member is kept as often as it is stored, and no
      other order is: one entry per order row. */
  lemma {:induction false} OrdersOfCounts(orders: seq<Order>, user: MemberId)
    ensures forall o :: multiset(OrdersOf(orders, user))[o]
                        == if o.member == user then multiset(orders)[o] else 0
  {
    if |orders| > 0 {
      var init := orders[..|orders| - 1];
      OrdersOfCounts(init, user);
      assert orders == init + [orders[|orders| - 1]];
    }
  }

  /** Filtering distributes over concatenation, so the member's orders keep
      their table order. */
  lemma {:induction false} OrdersOfAppend(a: seq<Order>, b: seq<Order>, user: MemberId)
    ensures OrdersOf(a + b, user) == OrdersOf(a, user) + OrdersOf(b, user)
  {
    if |b| == 0 {
      assert a + b == a;
    } else {
      var init := b[..|b| - 1];
      var last := b[|b| - 1];
      assert (a + b)[..|a + b| - 1] == a + init;
      assert (a + b)[|a + b| - 1] == last;
      OrdersOfAppend(a, init, user);
    }
  }

  /** The title string of one order, as the view builds it. */
  function OrderLine(books: seq<Book>, o: Order): (line: string)
    ensures line == Join(TitlesOf(books, o.books))
  {
    JoinedTitles(TitlesOf(books, o.books))
  }

  /** Each order paired with its ", "-joined book titles. */
  function ListOrders(books: seq<Book>, orders: seq<Order>): (r: seq<(Order, string)>)
    ensures |r| == |orders|
    ensures forall i :: 0 <= i < |orders| ==> r[i].0 == orders[i] && r[i].1 == OrderLine(books, orders[i])
  {
    if |orders| == 0 then []
    else [(orders[0], OrderLine(books, orders[0]))] + ListOrders(books, orders[1..])
  }

  lemma ListOrdersAppend(books: seq<Book>, orders: seq<Order>, o: Order)
    ensures ListOrders(books, orders + [o]) == ListOrders(books, orders) + [(o, OrderLine(books, o))]
  {
    var a := ListOrders(books, orders + [o]);
    var b := ListOrders(books, orders) + [(o, OrderLine(books, o))];
    assert |a| == |b|;
    forall i | 0 <= i < |a|
      ensures a[i] == b[i]
    {
      assert (orders + [o])[i] == if i < |orders| then orders[i] else o;
    }
  }

  datatype OrdersError = NoAvailableOrders

  /** The order list of a member; a user without a member record gets the
      "no available orders" outcome. */
  function MyOrders(s: Store, user: MemberId): (r: Result<seq<(Order, string)>, OrdersError>)
    ensures r.Err? <==> user !in s.members
    ensures r.Ok? ==> forall o :: (exists i :: 0 <= i < |r.value| && r.value[i].0 == o) <==> o in s.orders && o.member == user
    ensures r.Ok? ==> |r.value| == |OrdersOf(s.orders, user)|
    ensures r.Ok? ==> forall i :: 0 <= i < |r.value| ==> r.value[i].0 == OrdersOf(s.orders, user)[i]
    ensures r.Ok? ==> forall i :: 0 <= i < |r.value| ==> r.value[i].1 == Join(TitlesOf(s.books, r.value[i].0.books))
  {
    if user !in s.members then Err(NoAvailableOrders)
    else
      var mine := OrdersOf(s.orders, user);
      var listed := ListOrders(s.books, mine);
      assert forall o :: o in mine ==> exists i :: 0 <= i < |listed| && listed[i].0 == o by {
        forall o | o in mine
          ensures exists i :: 0 <= i < |listed| && listed[i].0 == o
        {
          var i :| 0 <= i < |mine| && mine[i] == o;
          assert listed[i].0 == o;
        }
      }
      Ok(listed)
  }

  /** A placed order appears last in the member's order list, paired with
      the titles of its books joined by ", ". */
  lemma PlacedOrderIsListed(s: Store, user: MemberId, input: OrderInput, today: Date)
    requires PlaceOrder(s, user, input, today).0.Placed?
    ensures var r := PlaceOrder(s, user, input, today);
            var o := r.0.order;
            && MyOrders(r.1, user).Ok?
            && MyOrders(r.1, user).value
               == MyOrders(s, user).value + [(o, Join(TitlesOf(s.books, o.books)))]
  {
    var r := PlaceOrder(s, user, input, today);
    var o := r.0.order;
    assert (s.orders + [o])[..|s.orders|] == s.orders;
    var mine := OrdersOf(s.orders, user);
    assert OrdersOf(r.1.orders, user) == mine + [o];
    ListOrdersAppend(s.books, mine, o);
  }

  /** `Member.books_title`: the borrowed books' titles joined by ", ", the
      empty string when nothing is borrowed. */
  function BooksTitle(books: seq<Book>, m: Member): (r: string)
    ensures m.borrowed == [] ==> r == ""
    ensures r == Join(TitlesOf(books, m.borrowed))
  {
    JoinedTitles(TitlesOf(books, m.borrowed))
  }
}

=== FILE: models.dfy ===
/** Record shapes of the catalogue: books, members, orders and
    reviews, with the choice enumerations and the field bounds the models
    declare. Relations that the ORM keeps as many-to-many tables are
    sequences without duplicates, in the order the rows were added. */
module Models {
  import opened Wrappers

  type BookId = nat
  type MemberId = nat
  type PublisherId = nat

  /** A calendar date as an opaque day number: the application only stores it. */
  type Date = int

  /** A `DecimalField(max_digits=10, decimal_places=2)` amount, in cents. */
  type Cents = int

  /** Price validators of `Book.price`: between 0 and 1000 dollars. */
  const MinPrice: Cents := 0
  const MaxPrice: Cents := 100000

  /** Ten digits in all, two of them after the point. */
  const PriceDigitsLimit: int := 10_000_000_000

  /** Review ratings are integers from 1 (worst) to 5 (best). */
  const MinRating: int := 1
  const MaxRating: int := 5

  // ---------------------------------------------------------------------
  // Choice enumerations
  // ---------------------------------------------------------------------

  datatype Category = ScienceTech | Fiction | Biography | Travel | Other

  /** The one-letter codes stored in `Book.category`, in choice order. */
  const CategoryCodes: seq<string> := ["S", "F", "B", "T", "O"]

  function CategoryCode(c: Category): string
  {
    match c
    case ScienceTech => "S"
    case Fiction => "F"
    case Biography => "B"
    case Travel => "T"
    case Other => "O"
  }

  /** Reads a submitted category code; only the five choice codes are known. */
  function CategoryFromCode(code: string): (r: Option<Category>)
    ensures r.Some? <==> code in CategoryCodes
    ensures r.Some? ==> CategoryCode(r.value) == code
  {
    if code == "S" then Some(ScienceTech)
    else if code == "F" then Some(Fiction)
    else if code == "B" then Some(Biography)
    else if code == "T" then Some(Travel)
    else if code == "O" then Some(Other)
    else None
  }

  /** Distinct categories have distinct codes. */
  lemma CategoryCodeInjective()
    ensures forall a, b :: CategoryCode(a) == CategoryCode(b) ==> a == b
  {
  }

  datatype Status = Regular | Premium | Guest

  function StatusCode(s: Status): int
  {
    match s
    case Regular => 1
    case Premium => 2
    case Guest => 3
  }

  /** Reads a stored status integer; only 1, 2 and 3 are choices. */
  function StatusFromCode(code: int): (r: Option<Status>)
    ensures r.Some? <==> 1 <= code <= 3
    ensures r.Some? ==> StatusCode(r.value) == code
  {
    if code == 1 then Some(Regular)
    else if code == 2 then Some(Premium)
    else if code == 3 then Some(Guest)
    else None
  }

  datatype OrderType = Purchase | Borrow

  function OrderTypeCode(t: OrderType): int
  {
    match t
    case Purchase => 0
    case Borrow => 1
  }

  /** Reads a submitted order type; only 0 and 1 are choices. */
  function OrderTypeFromCode(code: int): (r: Option<OrderType>)
    ensures r.Some? <==> code == 0 || code == 1
    ensures r.Some? ==> OrderTypeCode(r.value) == code
  {
    if code == 0 then Some(Purchase)
    else if code == 1 then Some(Borrow)
    else None
  }

  /** Reading back the code of any choice gives that choice, for all three
      enumerations. */
  lemma ChoiceCodesRoundTrip(c: Category, s: Status, t: OrderType)
    ensures CategoryFromCode(CategoryCode(c)) == Some(c)
    ensures StatusFromCode(StatusCode(s)) == Some(s)
    ensures OrderTypeFromCode(OrderTypeCode(t)) == Some(t)
  {
  }

  // ---------------------------------------------------------------------
  // Records
  // ---------------------------------------------------------------------

  datatype Book = Book(
    id: BookId,
    title: string,
    category: Category,
    numPages: nat,
    price: Cents,
    publisher: PublisherId,
    description: string,
    numReviews: nat)

  datatype Member = Member(
    username: string,
    firstName: string,
    lastName: string,
    status: Status,
    address: string,
    city: string,
    province: string,
    lastRenewal: Date,
    autoRenew: bool,
    borrowed: seq<BookId>,
    profileImage: string)

  datatype Order = Order(member: MemberId, books: seq<BookId>, orderType: OrderType, orderDate: Date)

  datatype Review = Review(reviewer: string, book: BookId, rating: int, comments: string, date: Date)

  // ---------------------------------------------------------------------
  // Field validation of a book price
  // ---------------------------------------------------------------------

  datatype PriceError = TooManyDigits | BelowMinPrice | AboveMaxPrice

  /** The errors the price field reports: the digit limit of the decimal
      field and the two value validators, each checked independently. */
  function PriceErrors(price: Cents): (r: seq<PriceError>)
    ensures r == [] <==> MinPrice <= price <= MaxPrice
    ensures BelowMinPrice in r <==> price < MinPrice
    ensures AboveMaxPrice in r <==> price > MaxPrice
  {
    (if -PriceDigitsLimit < price < PriceDigitsLimit then [] else [TooManyDigits])
    + (if price < MinPrice then [BelowMinPrice] else [])
    + (if price > MaxPrice then [AboveMaxPrice] else [])
  }

  predicate ValidPrice(price: Cents)
  {
    PriceErrors(price) == []
  }

  // ---------------------------------------------------------------------
  // Many-to-many relations as duplicate-free sequences
  // ---------------------------------------------------------------------

  predicate NoDup<T(==)>(s: seq<T>)
  {
    forall i, j :: 0 <= i < j < |s| ==> s[i] != s[j]
  }

  function Elements<T>(s: seq<T>): set<T>
  {
    set x | x in s
  }

  /** A duplicate-free sequence has as many elements as its set. */
  lemma {:induction false} NoDupCardinality<T>(s: seq<T>)
    requires NoDup(s)
    ensures |Elements(s)| == |s|
  {
    if |s| > 0 {
      var init := s[..|s| - 1];
      var last := s[|s| - 1];
      assert NoDup(init);
      NoDupCardinality(init);
      assert last !in Elements(init);
      assert s == init + [last];
      assert Elements(s) == Elements(init) + {last};
    }
  }

  /** `Order.total_items`: the size of the order's book relation. */
  function TotalItems(o: Order): nat
  {
    |o.books|
  }

  /** The relation holds each book once, so the count is the number of
      distinct books ordered. */
  lemma TotalItemsCountsDistinctBooks(o: Order)
    requires NoDup(o.books)
    ensures TotalItems(o) == |Elements(o.books)|
  {
    NoDupCardinality(o.books);
  }
}

=== FILE: tables.dfy ===
/** The persistent store with the ORM replaced by plain collections: the book
    table in row order, members by primary key, and the order and review
    tables in insertion order. */
module Tables {
  import opened Wrappers
  import opened Models

  datatype Store = Store(
    books: seq<Book>,
    members: map<MemberId, Member>,
    orders: seq<Order>,
    reviews: seq<Review>)

  /** Book ids are primary keys: no two rows share one. */
  predicate UniqueIds(books: seq<Book>)
  {
    forall i, j :: 0 <= i < |books| && 0 <= j < |books| && books[i].id == books[j].id ==> i == j
  }

  lemma SameIdSameBook(books: seq<Book>, a: Book, b: Book)
    requires UniqueIds(books)
    requires a in books && b in books && a.id == b.id
    ensures a == b
  {
    var i :| 0 <= i < |books| && books[i] == a;
    var j :| 0 <= j < |books| && books[j] == b;
  }

  /** Primary-key lookup of a book row. */
  function FindBook(books: seq<Book>, id: BookId): (r: Option<Book>)
    ensures r.Some? ==> r.value in books && r.value.id == id
    ensures r.None? ==> forall b :: b in books ==> b.id != id
  {
    if |books| == 0 then None
    else if books[0].id == id then Some(books[0])
    else FindBook(books[1..], id)
  }

  /** With unique keys the row the lookup finds is the only one with that id. */
  lemma FindBookIsUnique(books: seq<Book>, id: BookId)
    requires UniqueIds(books)
    ensures FindBook(books, id).Some? ==> forall b :: b in books && b.id == id ==> b == FindBook(books, id).value
  {
    if FindBook(books, id).Some? {
      forall b | b in books && b.id == id
        ensures b == FindBook(books, id).value
      {
        SameIdSameBook(books, b, FindBook(books, id).value);
      }
    }
  }

  predicate HasBook(books: seq<Book>, id: BookId)
  {
    FindBook(books, id).Some?
  }

  /** The reviews whose foreign key names the given book, in table order
      (the query has no ordering of its own; this order is the model's). */
  function ReviewsOf(reviews: seq<Review>, id: BookId): (r: seq<Review>)
    ensures forall rv :: rv in r <==> rv in reviews && rv.book == id
    ensures |r| <= |reviews|
  {
    if |reviews| == 0 then []
    else
      var last := reviews[|reviews| - 1];
      ReviewsOf(reviews[..|reviews| - 1], id) + (if last.book == id then [last] else [])
  }

  /** Each review of the book is kept as often as it is stored and every
      other review is dropped, so the length of the result is the book's
      number of review rows. */
  lemma {:induction false} ReviewsOfCounts(reviews: seq<Review>, id: BookId)
    ensures forall rv :: multiset(ReviewsOf(reviews, id))[rv]
                         == if rv.book == id then multiset(reviews)[rv] else 0
  {
    if |reviews| > 0 {
      var init := reviews[..|reviews| - 1];
      var last := reviews[|reviews| - 1];
      ReviewsOfCounts(init, id);
      assert reviews == init + [last];
    }
  }

  lemma ReviewsOfAppend(reviews: seq<Review>, rv: Review, id: BookId)
    ensures ReviewsOf(reviews + [rv], id)
         == ReviewsOf(reviews, id) + (if rv.book == id then [rv] else [])
  {
    assert (reviews + [rv])[..|reviews|] == reviews;
  }

  /** The stored review count of every book equals its number of reviews. */
  predicate ReviewCountsConsistent(books: seq<Book>, reviews: seq<Review>)
  {
    forall i :: 0 <= i < |books| ==> books[i].numReviews == |ReviewsOf(reviews, books[i].id)|
  }

  /** What the application maintains about its store: keys are unique, review
      counts match the review table, every stored rating is in range, and the
      many-to-many relations hold each book once. */
  predicate Valid(s: Store)
  {
    && UniqueIds(s.books)
    && ReviewCountsConsistent(s.books, s.reviews)
    && (forall i :: 0 <= i < |s.reviews| ==> MinRating <= s.reviews[i].rating <= MaxRating)
    && (forall u :: u in s.members ==> NoDup(s.members[u].borrowed))
    && (forall i :: 0 <= i < |s.orders| ==> NoDup(s.orders[i].books))
  }

  /** The titles of the listed books, in the order listed; ids without a row
      contribute nothing. */
  function TitlesOf(books: seq<Book>, ids: seq<BookId>): (r: seq<string>)
    ensures |r| <= |ids|
    ensures (forall i :: 0 <= i < |ids| ==> HasBook(books, ids[i])) ==>
              && |r| == |ids|
              && forall i :: 0 <= i < |ids| ==> r[i] == FindBook(books, ids[i]).value.title
  {
    if |ids| == 0 then []
    else
      var init := TitlesOf(books, ids[..|ids| - 1]);
      match FindBook(books, ids[|ids| - 1])
      case Some(b) => init + [b.title]
      case None => init
  }
}

=== FILE: titles.dfy ===
/** The ", "-joined title strings shown for a member's borrowed books and for
    each order. Both places build them the same way: append every title
    followed by ", ", then cut the last two characters off. */
module Titles {

  const Separator: string := ", "

  /** The accumulator the loops build: each title followed by the separator. */
  function Accumulate(titles: seq<string>): string
  {
    if |titles| == 0 then ""
    else Accumulate(titles[..|titles| - 1]) + titles[|titles| - 1] + Separator
  }

  /** Slicing with `[:-2]`: everything but the last two characters, and the
      empty string when there are fewer than two. */
  function DropLastTwo(s: string): string
  {
    if |s| >= 2 then s[..|s| - 2] else ""
  }

  function TotalLength(titles: seq<string>): nat
  {
    if |titles| == 0 then 0 else TotalLength(titles[..|titles| - 1]) + |titles[|titles| - 1]|
  }

  /** The reference join: titles separated by ", ", nothing before the first
      title and nothing after the last. */
  function Join(titles: seq<string>): (r: string)
    ensures |titles| == 0 ==> r == ""
    ensures |titles| > 0 ==> |r| == TotalLength(titles) + |Separator| * (|titles| - 1)
    ensures |titles| > 0 ==> r[|r| - |titles[|titles| - 1]|..] == titles[|titles| - 1]
  {
    if |titles| == 0 then ""
    else if |titles| == 1 then titles[0]
    else
      var init := titles[..|titles| - 1];
      Join(init) + Separator + titles[|titles| - 1]
  }

  /** The accumulated string is the join with one separator too many. */
  lemma {:induction false} AccumulateIsJoinPlusSeparator(titles: seq<string>)
    requires |titles| > 0
    ensures Accumulate(titles) == Join(titles) + Separator
  {
    var init := titles[..|titles| - 1];
    var last := titles[|titles| - 1];
    assert Accumulate(titles) == Accumulate(init) + last + Separator;
    if |init| > 0 {
      AccumulateIsJoinPlusSeparator(init);
      assert Join(titles) == Join(init) + Separator + last;
      assert Accumulate(titles) == (Join(init) + Separator) + last + Separator;
    } else {
      assert Join(titles) == last;
    }
  }

  /** Trimming the accumulator yields exactly the join, including the empty
      string for no titles. */
  lemma TrimmedAccumulateIsJoin(titles: seq<string>)
    ensures DropLastTwo(Accumulate(titles)) == Join(titles)
  {
    if |titles| > 0 {
      AccumulateIsJoinPlusSeparator(titles);
      var j := Join(titles);
      assert (j + Separator)[..|j + Separator| - 2] == j;
    }
  }

  /** The title string as the views build it. */
  function JoinedTitles(titles: seq<string>): (r: string)
    ensures r == Join(titles)
  {
    TrimmedAccumulateIsJoin(titles);
    DropLastTwo(Accumulate(titles))
  }

  /** Two borrowed or ordered books "B1" and "B2" give "B1, B2". */
  lemma TwoTitlesExample()
    ensures JoinedTitles(["B1", "B2"]) == "B1, B2"
  {
    assert ["B1", "B2"][..1] == ["B1"];
  }
}

=== FILE: wrappers.dfy ===
/** Failure-carrying datatypes used in place of the exceptions and `None`
    values of the application. */
module Wrappers {

  /** A value that may be absent (a blank optional form field, a missing row). */
  datatype Option<+T> = None | Some(value: T)

  /** Either a validated value or the errors that prevented it. */
  datatype Result<+T, +E> = Ok(value: T) | Err(error: E)
}
